=== FILE: README.md ===
# Quiz Hub engine, modelled in Dafny

Quiz Hub is a single-page quiz app. This project models the engine in
`app.js` behind its views:

- a quiz definition from the catalog becomes a randomized session copy:
  - the question order is shuffled;
  - each question's option order is shuffled;
  - true/false questions are normalized;
  - every answer index is remapped to the new option order.
- answers are graded;
- the session record `CURRENT` moves from state to state under the question
  view's handlers;
- the results view counts the score;
- `escapeHTML` makes text safe for markup.

The modules follow the parts of the engine:

| file | module | what it holds |
|---|---|---|
| `wrappers.dfy` | `Wrappers` | `Option` (JavaScript's `null`/`undefined` versus a value) |
| `strings.dfy` | `Strings` | `toLowerCase` and `trim`, as the type tag and the true/false test use them |
| `randomization.dfy` | `Randomization` | `shuffle` (Fisher-Yates), index permutations, and reading items through an index order |
| `questions.dfy` | `Questions` | quiz and question data, `qType`, `normalizeTF`, answer remapping, `prepareRandomisedQuiz` |
| `grading.dfy` | `Grading` | `isAnswered`, `isCorrect`, `firstUnanswered`, the scoring loop, the percentage, which controls the question view shows |
| `session.dfy` | `SessionState` | the `CURRENT` record as a class, `startQuiz`, `reshuffleQuestionAt`, and the handler bodies |
| `html.dfy` | `Html` | `escapeHTML`, a one-character-at-a-time reference definition, and its inverse |

Randomness is an input to the model. Each `Math.random()` draw of `shuffle`
at step `i` is a swap partner `js[i]` with `js[i] <= i` (`ValidSwaps`). A
quiz start takes a `Draws` value with two parts:

- the swaps for the question order;
- for each question of the definition, the swaps for its option order.

What the form holds when a handler runs (the radio value, or the sorted
list of ticked checkbox values) is a `Response` parameter.

Question types are the `Kind` datatype, read from the lower-cased type tag:

- `multiple-choice-multiple` is `MultipleChoice`;
- `true-false` is `TrueFalse`;
- any other tag is `SingleChoice`, and so is a missing tag (it defaults to
  `multiple-choice-single`).

A session question carries its answer key in one of two forms:

- `SingleKey(answerIndex)` for single-choice and true/false questions;
- `MultiKey(answerIndexes)` for multiple-choice questions.

One behaviour of the code differs from what the app is meant to do, and the
model follows the code:

- **Next on the last question.** Next is meant to jump from the last
  question to the lowest unanswered one. The view never renders Next on the
  last question, so that branch cannot run (see Findings). `Session.Next`
  still models the handler's body, branch included.

One modelling choice concerns Finish. The view renders Finish only on the
last question once every answer is given, and every change on the last
question re-renders it, so the code never scores an incomplete session. That
guard lives in the markup and is modelled as `FinishShown`. The scoring code
asks nothing of the state, so `Session.Finish` asks nothing either.

## Model

| member | source | states |
|---|---|---|
| Strings.Lower | app.js:82-84 | lower-casing keeps the length, leaves no upper-case letter and maps each character on its own |
| Strings.LowerIdempotent | app.js:82-84 | lower-casing an already lower-cased string changes nothing |
| Strings.Trim | app.js:100-105 | the trimmed text is the input with only whitespace removed, and only at its two ends; it neither starts nor ends with whitespace |
| Strings.TrimUntrimmed | app.js:100-105 | a text with no whitespace at either end is its own trim |
| Strings.Canon | app.js:100-105 | the comparison form of an option is an infix of it, lower-cased character by character, with only whitespace around it in the input and none at its own ends |
| Strings.CanonTrueFalse | app.js:95-105 | the default options "True" and "False" compare equal to "true" and "false" |
| Randomization.SwapAt | app.js:89 | a swap exchanges the two positions and leaves every other position alone |
| Randomization.Shuffle | app.js:85-92 | the Fisher-Yates loop on a copy computes `Shuffled(arr, js)`: same length and same multiset as the input, which is a value and so cannot change |
| Randomization.ShuffledIsPermutation | app.js:85-92 | every shuffle result is a permutation (same length, same multiset) of its input |
| Randomization.Range | app.js:120 | `xs.map((_, i) => i)` is `[0, 1, ..., n-1]`; that it lists each index once is `RangeIsIndexPermutation` |
| Randomization.RangeIsIndexPermutation | app.js:120 | `[0, ..., n-1]` lists each index below `n` exactly once |
| Randomization.SwapKeepsIndexPermutation | app.js:89 | swapping two entries of an index permutation gives an index permutation |
| Randomization.StepsKeepIndexPermutation | app.js:87-90 | every run of the swap loop keeps an index permutation one |
| Randomization.IndexShuffle | app.js:120 | shuffling the positions `[0, n)` gives each position exactly once |
| Randomization.Gather | app.js:127 | `p.map(j => s[j])` has one entry per index of `p`, namely `s[p[k]]`; that reading the options through the shuffled index list is a shuffle of them is `GatherIndexShuffle` |
| Randomization.GatherSteps | app.js:126-127 | reading items through a swapped index order is swapping the items |
| Randomization.GatherIndexShuffle | app.js:126-127 | reading the options through the shuffled index list is the same as shuffling the options directly with the same draws, so the new options are a permutation of the old |
| Questions.QType | app.js:82-84 | a missing or empty tag gives `multiple-choice-single`; any other tag is lower-cased character by character, keeping its length |
| Questions.KindOf | app.js:123-129 | a question is multiple choice or true/false exactly when its lower-cased tag is `multiple-choice-multiple` or `true-false`; every other tag, and a missing one, is single choice |
| Questions.KindOfIgnoresCase | app.js:82-84 | two tags that differ only in the case of their letters select the same kind |
| Questions.QTypeIdempotent | app.js:82-84 | applying `qType` to a tag that is already `qType`'d changes nothing, so the stored type and a re-read of it agree |
| Questions.IndexOf | app.js:132 | `indexOf` is -1 exactly when the value is absent; otherwise it is the first position holding it |
| Questions.Canonicals | app.js:100-105 | each option in its comparison form, one per option; the first-match rule built on it is `BoolAnswerIndex` with `DerivedFromBool` |
| Questions.BoolAnswerIndex | app.js:99-112 | a boolean `answer` selects the first option reading "true" (resp. "false"), else 0 (resp. 1); with two options the index is 0 or 1 |
| Questions.NormalizeTF | app.js:93-117 | exactly two options: the given ones when there are two, otherwise `["True", "False"]`; a numeric `answerIndex` is kept, else a boolean `answer` decides, else 0; every other field is unchanged |
| Questions.NormalizeDefaultTrue | app.js:95-112 | `answer: true` without usable options gets index 0, the option "True" |
| Questions.NormalizeDefaultFalse | app.js:95-112 | `answer: false` without usable options gets index 1, the option "False" |
| Questions.Canonical | app.js:123-137 | the question before its options move: kind from the tag; true/false takes the options and `answerIndex` of `normalizeTF`; the key is `answerIndexes` for multiple choice and `answerIndex ?? 0` otherwise |
| Questions.Insert | app.js:134 | inserting into a sorted list keeps it sorted and adds exactly one element |
| Questions.SortAscending | app.js:134 | the numeric sort gives a sorted permutation of its input |
| Questions.KeepNonNegative | app.js:133 | `filter(x => x >= 0)` keeps every non-negative entry as often as it occurs, and drops every negative one |
| Questions.MappedIndexes | app.js:132 | `src.map(ai => p.indexOf(ai))`: one `indexOf` per entry of `src`; which positions survive the filter is `KeptIndexes`, and the finished list is `RemapIndexes` |
| Questions.KeptIndexes | app.js:131-133 | after `indexOf` and the `x >= 0` filter, exactly the positions of the new order where a listed index first occurs remain |
| Questions.RemapIndexes | app.js:131-134 | the remapped list is sorted, no longer than the source list, and holds exactly the positions of the new order where a listed index first occurs |
| Questions.Remapped | app.js:126-138 | the question with options in the order `p`: same kind and text, the options read through `p`, and a multi key exactly for multiple choice |
| Questions.IndexOfPermutation | app.js:137 | in an index permutation, the new position of a valid index holds it; an invalid index maps to -1 |
| Questions.RemapKeepsSingleAnswer | app.js:137-138 | single and true/false: a valid answer index stays valid and names the same option text; an invalid one becomes -1 |
| Questions.RemapKeepsMultiAnswer | app.js:129-135 | multiple choice: the remapped indexes are sorted, are exactly the new positions of the valid correct indexes, and name the same option texts |
| Questions.RemapKeepsKeyValid | app.js:126-138 | remapping keeps a valid key valid, and a remapped multiple-choice key is always valid |
| Questions.RandomisedQuestion | app.js:121-138 | a session question keeps the kind and text of its definition, and its options are `shuffle(base.options)`, a permutation of them |
| Questions.QuestionOrder | app.js:120 | the question order names each definition exactly once |
| Questions.PrepareRandomisedQuiz | app.js:119-142 | the session copy keeps id, title and description and has one question per definition |
| Questions.PreparedQuestionAt | app.js:119-142 | session position `k` holds one definition with the same kind and text and a permutation of its options; a valid single key names the same option text; a multiple-choice key is sorted, names only correct texts and names every valid correct one |
| Questions.ReshuffledQuestion | app.js:144-158 | reshuffling a question keeps its kind and text and permutes its options; a valid single key names the same option text; a multiple-choice key is sorted, names only correct texts and names every valid correct one |
| Grading.IsAnswered | app.js:182-186 | a list counts when non-empty, any number counts (0 included), and `null`/`undefined` does not |
| Grading.IsCorrect | app.js:187-197 | multiple choice: the ticked set equals the correct set; otherwise the response is a number equal to `answerIndex` |
| Grading.IsCorrectIgnoresOrder | app.js:189-194 | multiple-choice grading depends on the ticked set only, not on order or duplicates |
| Grading.CorrectIsAnswered | app.js:182-197 | a correct response is an answered one, unless the key of a multiple-choice question is empty |
| Grading.RemapPreservesSingleGrading | app.js:137-138 | after the options move, picking the new position of an option is graded as picking it was before |
| Grading.ResultOk | app.js:419-432 | the results view's `ok` for a question equals `isCorrect` for every question and response |
| Grading.SameSizeAndCovered | app.js:422 | equal numbers of distinct entries, with every correct entry ticked, is exactly set equality |
| Grading.AllAnswered | app.js:219-221 | every answer is given exactly when no entry is `null` or an empty list |
| Grading.FirstUnanswered | app.js:199-208 | -1 exactly when every position is answered; otherwise the lowest unanswered position |
| Grading.Score | app.js:407-447 | one verdict per question, each `isCorrect`; the count is the number of correct positions, between 0 and the total; it equals the total exactly when all are correct and is 0 exactly when none is |
| Grading.Percentage | app.js:447-448 | no percentage for a quiz with no questions; otherwise the exact ratio rounded half up, at most 100, and 100 when all are correct |
| Grading.PreviousEnabled | app.js:263-265 | Previous is enabled on every question but the first |
| Grading.NextShown | app.js:266-272 | as written, Next is rendered on every question but the last |
| Grading.FinishShown | app.js:266-270 | Finish is rendered on the last question once every answer is given |
| Grading.RecoveryShown | app.js:251-260 | Show solution and Retry are rendered for a checked question whose stored answer is wrong |
| Grading.NextShownBelowLast | app.js:266-272 | as written, a question that shows Next is never the last one, so Next never reaches its `firstUnanswered` branch |
| Grading.LastQuestionDeadEnd | app.js:266-272 | as written, position 1 of 2 with answers `[null, 0]` shows neither Next nor Finish |
| Grading.ForwardControlExactlyOne | app.js:266-272 | with Next offered on the last question while an answer is missing, every question offers exactly one of Next and Finish, Next is offered wherever the code offers it, and a Next on the last question always has an unanswered question to jump to |
| SessionState.FindQuiz | app.js:473 | the first catalog entry with that id, and none exactly when no entry has it |
| SessionState.Session.constructor | app.js:7-13 | no quiz, index 0 and empty lists |
| SessionState.Session.StartQuiz | app.js:160-168 | the session holds the randomized copy, index 0, and one unanswered, unchecked, unrevealed entry per question |
| SessionState.Session.Select | app.js:281-291 | the form's selection replaces the current answer and nothing else |
| SessionState.Session.Check | app.js:299-310 | an empty selection changes nothing; otherwise the answer is stored, the question is checked and its solution hidden, and Show solution and Retry appear exactly when it is wrong |
| SessionState.Session.ShowSolution | app.js:312-317 | callable only while Show solution is on screen, that is while the question is checked and its answer wrong (the markup at app.js:251-255); only the current question's solution flag is set, and a revealed solution stays on a checked question (`Valid`) |
| SessionState.Session.ReshuffleQuestionAt | app.js:144-158 | only question `i` changes, to its remapped copy under a fresh shuffle |
| SessionState.Session.Retry | app.js:319-327 | callable only while Retry is on screen, that is while the question is checked and its answer wrong (the markup at app.js:256-260); the current question is reshuffled, its answer cleared (`[]` or `null`) and both flags reset; the quiz is the old one with only the current question replaced, so its id, title, description and every other question stay, as do all other entries |
| SessionState.Session.Previous | app.js:329-335 | the index goes back by one, except on the first question |
| SessionState.Session.Next | app.js:337-348 | the selection is stored first; below the last question the index goes up by one; from the last it goes to the lowest unanswered question, or stays when all are answered |
| SessionState.Session.Finish | app.js:350-354 | the score of the results view: one verdict per question, the count of correct ones and the percentage |
| SessionState.Session.RetryQuiz | app.js:471-477 | a fresh start of the catalog quiz with the same id, or no change when it is gone |
| Html.ReplaceAll | app.js:482-486 | a pass leaves none of its character when the replacement has none, and adds only replacement characters |
| Html.EscapeHtml | app.js:480-487 | the output has no `<`, `>`, `"` or `'` |
| Html.EscapeHtmlAppend | app.js:480-487 | escaping distributes over concatenation |
| Html.EscapeHtmlChar | app.js:480-487 | the five passes turn one character into its own entity, or leave it alone |
| Html.EscapeHtmlIsPerChar | app.js:480-487 | because `&` goes first, the five passes equal escaping each character once, left to right |
| Html.EscapeHtmlIsSafe | app.js:480-487 | the output has no `<`, `>`, `"` or `'`, and every `&` in it starts one of the five entities |
| Html.UnescapeEscape | app.js:480-487 | decoding the five entities in the output gives the input back, so escaping loses nothing |

## Left out

- DOM reads and markup are not modelled: `$`/`$$`, `renderLanding`, `renderNotFound`, the HTML of `renderQuiz`, `renderOptions` and `renderResults`, and the review strings. The form's selection is a `Response` parameter.
- `init`, `fetch`, `route` and hash parsing are I/O. The catalog and the chosen quiz are inputs, and `FindQuiz` stands for the catalog lookup.
- `Math.random` is replaced by explicit swap choices. No probability distribution is stated.
- `alert`, `document.title`, event-listener registration and the re-render after each handler are side effects outside the session state.
- The progress width `(index / total) * 100` is floating point and is not modelled.
- Grading.Percentage: computed in exact integer arithmetic as `(200*correct + total) / (2*total)`, instead of `Math.round` on a floating-point quotient. A zero-question quiz has no percentage here, where the code would show `NaN`.
- Strings.Lower: only the ASCII letters `A`-`Z` are lower-cased, not the full Unicode case mapping of `toLowerCase`.
- Strings.Trim: only the whitespace characters listed in `IsSpace` are removed, not every Unicode space separator.
- Questions.Canonical: a non-true/false question with no `options` array would make the code throw at `base.options.map`. The model reads a missing list as empty.
- Questions.QuestionDef: `answerIndex` is an integer or absent. Non-integer numbers, strings and other JSON values in `answerIndex`, `answer` or `answerIndexes` are not modelled.
- Html.EscapeHtml: takes a string. The code first applies `String(s)`, so a non-string title, description or id from the catalog is converted before escaping; that conversion is not modelled.
- Questions.QuestionDef: the type tag and the options are strings. A non-string option such as JSON `true` reads as "true" through `String(o)` in the code, and a non-string type tag makes `toLowerCase` throw; neither is modelled.
- SessionState.Session.Select: the disabled inputs of a checked question are not modelled. `Select` can still be called on a checked question, where the browser would ignore the change. The same holds for the `sel` of `SessionState.Session.Check` and `SessionState.Session.Next`: on a checked question the form still holds the stored answer, so the code stores it again, while the model accepts any selection there.
- SessionState.Session.Finish: the results view is reached only when `FinishShown` holds. `Finish` asks nothing of the state, as the scoring code asks nothing.
- SessionState.Session: `answers`, `checked` and `showSolution` are sequence values that each handler replaces, where the code updates arrays in place. `renderQuiz` takes local aliases of them, but every handler re-renders and no behaviour depends on those aliases, so only the in-place update itself is not captured.
- Randomization.Shuffle: the copy is a local array the method owns. Aliasing with the caller's array does not arise, because the caller's list is a value.

## Findings

| source | as written | input that shows it | evidently intended | confidence | as-written member | corrected member |
|---|---|---|---|---|---|---|
| app.js:266-272, app.js:337-348 | Next is rendered only when `index !== total - 1`. So the `firstUnanswered` branch of its handler never runs, and on the last question with an answer missing elsewhere neither Next nor Finish is shown. | two questions, on position 1, answers `[null, 0]` | Next is offered on the last question while any answer is missing, and jumps to the lowest unanswered question, as the last-question clauses of `SessionState.Session.Next` state; every question offers exactly one of Next and Finish | not executed | Grading.LastQuestionDeadEnd | Grading.ForwardControlExactlyOne |

=== FILE: grading.dfy ===
/**
 * The grading engine and the score: `isAnswered`, `isCorrect`,
 * `firstUnanswered`, the correct-answer count of `renderResults`, and which
 * controls the question view offers.
 */
module Grading {
  import opened Wrappers
  import opened Randomization
  import opened Questions

  /**
   * A stored or selected response: `null` (or `undefined`), a number from a
   * radio button, or the sorted list of ticked checkbox values.
   */
  datatype Response = NoAnswer | Choice(index: int) | Choices(indexes: seq<int>)

  /**
   * `isAnswered(val, q)`: a list counts when non-empty, a number always (0
   * included); `null` and `undefined` never.
   */
  function IsAnswered(v: Response): (b: bool)
    ensures b <==> v != NoAnswer && v != Choices([])
  {
    match v
    case Choices(xs) => |xs| > 0
    case Choice(_) => true
    case NoAnswer => false
  }

  /** The answer stored for position `i`; past the end of the list it is `undefined`. */
  function AnswerAt(answers: seq<Response>, i: nat): Response {
    if i < |answers| then answers[i] else NoAnswer
  }

  /** `Array.isArray(user) ? user : []`. */
  function ResponseIndexes(user: Response): seq<int> {
    if user.Choices? then user.indexes else []
  }

  function Elements(s: seq<int>): set<int> {
    set x | x in s
  }

  lemma SubsetOfSameSize(a: set<int>, u: set<int>)
    requires a <= u && |a| == |u|
    ensures a == u
  {
    assert u == a + (u - a);
    assert |u| == |a| + |u - a|;
  }

  /**
   * `isCorrect(q, user)`. Multiple choice: the two sets have the same size and
   * every correct index was ticked, which is set equality. Otherwise: the
   * response is a number equal to `answerIndex`.
   */
  function IsCorrect(q: Question, user: Response): (b: bool)
    ensures q.kind == MultipleChoice ==> (b <==> Elements(KeyIndexes(q.key)) == Elements(ResponseIndexes(user)))
    ensures q.kind != MultipleChoice ==> (b <==> q.key.SingleKey? && user == Choice(q.key.answerIndex))
  {
    if q.kind == MultipleChoice then
      var a := Elements(KeyIndexes(q.key));
      var u := Elements(ResponseIndexes(user));
      if |a| == |u| && (forall k :: k in a ==> k in u) then
        SubsetOfSameSize(a, u);
        true
      else false
    else user.Choice? && q.key.SingleKey? && user.index == q.key.answerIndex
  }

  /** Multiple-choice grading depends on the ticked set only, not on order or repetition. */
  lemma IsCorrectIgnoresOrder(q: Question, u1: seq<int>, u2: seq<int>)
    requires q.kind == MultipleChoice
    requires forall x :: x in u1 <==> x in u2
    ensures IsCorrect(q, Choices(u1)) == IsCorrect(q, Choices(u2))
  {
    forall x
      ensures x in Elements(u1) <==> x in Elements(u2)
    {
    }
    assert Elements(u1) == Elements(u2);
  }

  /** A correct response is an answered one, unless the answer key itself is empty. */
  lemma CorrectIsAnswered(q: Question, user: Response)
    requires IsCorrect(q, user)
    requires q.kind == MultipleChoice ==> |KeyIndexes(q.key)| > 0
    ensures IsAnswered(user)
  {
    if q.kind == MultipleChoice {
      var x := KeyIndexes(q.key)[0];
      assert x in Elements(KeyIndexes(q.key));
      assert x in Elements(ResponseIndexes(user));
    }
  }

  /**
   * A single-choice or true/false question graded after its options were
   * permuted: picking the option at the new position of `a` is graded as
   * picking `a` was before.
   */
  lemma RemapPreservesSingleGrading(q: Question, p: seq<int>, a: int)
    requires IsIndexPermutation(p, |q.options|)
    requires q.kind != MultipleChoice && q.key.SingleKey?
    requires 0 <= a < |q.options|
    ensures IsCorrect(Remapped(q, p), Choice(IndexOf(p, a))) == IsCorrect(q, Choice(a))
  {
    IndexOfPermutation(p, |q.options|, a);
    IndexOfPermutation(p, |q.options|, q.key.answerIndex);
    RemapKeepsSingleAnswer(q, p);
  }

  /**
   * The per-question `ok` of `renderResults`: the results screen grades every
   * question exactly as the Check button does.
   */
  function ResultOk(q: Question, user: Response): (ok: bool)
    ensures ok == IsCorrect(q, user)
  {
    if q.kind == MultipleChoice then
      var u := ResponseIndexes(user);
      var a := KeyIndexes(q.key);
      SameSizeAndCovered(a, u);
      |Elements(u)| == |Elements(a)| && forall x :: x in a ==> x in u
    else
      user.Choice? && q.key.SingleKey? && user.index == q.key.answerIndex
  }

  /** Same number of distinct entries, and every entry of `a` in `u`: set equality. */
  lemma SameSizeAndCovered(a: seq<int>, u: seq<int>)
    ensures (|Elements(u)| == |Elements(a)| && forall x :: x in a ==> x in u) <==> Elements(a) == Elements(u)
  {
    var ea, eu := Elements(a), Elements(u);
    if |eu| == |ea| && forall x :: x in a ==> x in u {
      forall x | x in ea
        ensures x in eu
      {
        assert x in a;
      }
      SubsetOfSameSize(ea, eu);
    }
    if ea == eu {
      forall x | x in a
        ensures x in u
      {
        assert x in ea;
      }
    }
  }

  /** `firstUnanswered(quiz, answers)`: the lowest unanswered position below `n`, or -1. */
  method FirstUnanswered(n: nat, answers: seq<Response>) returns (r: int)
    ensures -1 <= r < n
    ensures r == -1 <==> forall i :: 0 <= i < n ==> IsAnswered(AnswerAt(answers, i))
    ensures r >= 0 ==> !IsAnswered(AnswerAt(answers, r))
    ensures r >= 0 ==> forall i :: 0 <= i < r ==> IsAnswered(AnswerAt(answers, i))
  {
    for i := 0 to n
      invariant forall k :: 0 <= k < i ==> IsAnswered(AnswerAt(answers, k))
    {
      var v := AnswerAt(answers, i);
      var answered := match v
        case Choices(xs) => |xs| > 0
        case Choice(_) => true
        case NoAnswer => false;
      if !answered {
        return i;
      }
    }
    return -1;
  }

  /** `answers.every(v => isAnswered(v))`: no entry is `null` or an empty list. */
  function AllAnswered(answers: seq<Response>): (b: bool)
    ensures b <==> NoAnswer !in answers && Choices([]) !in answers
  {
    forall i :: 0 <= i < |answers| ==> IsAnswered(answers[i])
  }

  /** The positions below `n` whose stored answer is correct. */
  function CorrectPositions(questions: seq<Question>, answers: seq<Response>): set<nat> {
    set i: nat | i < |questions| && IsCorrect(questions[i], AnswerAt(answers, i))
  }

  /**
   * The loop of `renderResults`: grades every question in session order and
   * counts the correct ones. `oks` is the per-question verdict of the review.
   */
  method Score(questions: seq<Question>, answers: seq<Response>) returns (correct: nat, oks: seq<bool>)
    ensures |oks| == |questions|
    ensures forall i :: 0 <= i < |questions| ==> oks[i] == IsCorrect(questions[i], AnswerAt(answers, i))
    ensures correct == |CorrectPositions(questions, answers)|
    ensures correct <= |questions|
    ensures correct == |questions| <==> forall i :: 0 <= i < |questions| ==> oks[i]
    ensures correct == 0 <==> forall i :: 0 <= i < |questions| ==> !oks[i]
  {
    correct, oks := 0, [];
    ghost var counted: set<nat> := {};
    for i := 0 to |questions|
      invariant |oks| == i
      invariant forall k :: 0 <= k < i ==> oks[k] == IsCorrect(questions[k], AnswerAt(answers, k))
      invariant counted == set k: nat | k < i && IsCorrect(questions[k], AnswerAt(answers, k))
      invariant correct == |counted| && correct <= i
      invariant correct == i <==> forall k :: 0 <= k < i ==> oks[k]
      invariant correct == 0 <==> forall k :: 0 <= k < i ==> !oks[k]
    {
      var ok := ResultOk(questions[i], AnswerAt(answers, i));
      if ok {
        assert i !in counted;
        counted := counted + {i};
        correct := correct + 1;
      }
      oks := oks + [ok];
    }
    assert counted == CorrectPositions(questions, answers);
  }

  /**
   * `Math.round((correct / total) * 100)` in exact arithmetic: the nearest
   * integer, halves rounded up. A quiz with no questions divides by zero.
   */
  function Percentage(correct: nat, total: nat): (r: Option<nat>)
    ensures r.None? <==> total == 0
    ensures r.Some? ==> 2 * total * r.value <= 200 * correct + total < 2 * total * r.value + 2 * total
    ensures r.Some? && correct <= total ==> r.value <= 100
    ensures r.Some? && correct == total ==> r.value == 100
  {
    if total == 0 then None
    else
      var pct := (200 * correct + total) / (2 * total);
      PercentageBounds(correct, total, pct);
      Some(pct)
  }

  lemma PercentageBounds(correct: nat, total: nat, pct: nat)
    requires total > 0 && pct == (200 * correct + total) / (2 * total)
    ensures 2 * total * pct <= 200 * correct + total < 2 * total * pct + 2 * total
    ensures correct <= total ==> pct <= 100
    ensures correct == total ==> pct == 100
  {
    var n, d := 200 * correct + total, 2 * total;
    var m := n % d;
    assert n == d * pct + m && 0 <= m < d;
    if correct <= total && pct > 100 {
      MulMonotone(d, 101, pct);
    }
    if correct == total && pct < 100 {
      MulMonotone(d, pct + 1, 100);
    }
  }

  lemma MulMonotone(d: nat, a: nat, b: nat)
    requires a <= b
    ensures d * a <= d * b
  {
    assert d * b == d * a + d * (b - a);
  }

  // ----- the controls the question view shows (renderQuiz) -----

  /** The Previous button is enabled except on the first question. */
  predicate PreviousEnabled(index: int) {
    index != 0
  }

  /** As written: the Next button is rendered on every question but the last. */
  predicate NextShown(index: int, total: int) {
    index != total - 1
  }

  /** The Finish button is rendered on the last question once every answer is given. */
  predicate FinishShown(index: int, total: int, answers: seq<Response>) {
    index == total - 1 && AllAnswered(answers)
  }

  /** Show-solution and Retry are rendered for a checked question answered wrongly. */
  predicate RecoveryShown(q: Question, stored: Response, wasChecked: bool) {
    wasChecked && !IsCorrect(q, stored)
  }

  /**
   * As written, a press of Next never reaches the "jump to the first
   * unanswered question" branch of its handler: the button exists only
   * below the last position.
   */
  lemma NextShownBelowLast(index: int, total: int)
    requires 0 <= index < total && NextShown(index, total)
    ensures index < total - 1
  {
  }

  /**
   * As written, on the last question with an answer missing elsewhere the
   * view offers neither Next nor Finish: for example position 1 of 2 with
   * answers `[null, 0]`.
   */
  lemma LastQuestionDeadEnd()
    ensures var answers := [NoAnswer, Choice(0)];
      !NextShown(1, 2) && !FinishShown(1, 2, answers) && !AllAnswered(answers)
  {
    assert !IsAnswered([NoAnswer, Choice(0)][0]);
  }

  /**
   * The evidently intended forward control: Next is offered below the last
   * question and, on the last question, while an answer is still missing.
   */
  predicate NextOffered(index: int, total: int, answers: seq<Response>) {
    index != total - 1 || !AllAnswered(answers)
  }

  /**
   * With the intended control, every question offers exactly one of Next and
   * Finish, Next is offered wherever the code offers it, and a Next offered on
   * the last question always has an unanswered question to jump to (the jump
   * itself is `Session.Next`).
   */
  lemma ForwardControlExactlyOne(index: int, total: int, answers: seq<Response>)
    requires 0 <= index < total
    ensures NextOffered(index, total, answers) != FinishShown(index, total, answers)
    ensures NextShown(index, total) ==> NextOffered(index, total, answers)
    ensures index < total - 1 ==> NextOffered(index, total, answers) && NextShown(index, total)
    ensures index == total - 1 && NextOffered(index, total, answers) ==>
              exists k :: 0 <= k < |answers| && !IsAnswered(answers[k])
  {
  }
}

=== FILE: html.dfy ===
/**
 * `escapeHTML`: five `replaceAll` passes over the text, ampersand first, so
 * that question text and option labels can be placed inside markup.
 */
module Html {

  /** `s.replaceAll(c, rep)` for a one-character pattern `c`. */
  function ReplaceAll(s: string, c: char, rep: string): (r: string)
    ensures c !in rep ==> c !in r
    ensures forall x :: x in r ==> x in rep || (x in s && x != c)
  {
    if s == [] then []
    else (if s[0] == c then rep else [s[0]]) + ReplaceAll(s[1..], c, rep)
  }

  /** `escapeHTML(s)`. */
  function EscapeHtml(s: string): (r: string)
    ensures '<' !in r && '>' !in r && '"' !in r && '\'' !in r
  {
    var s1 := ReplaceAll(s, '&', "&amp;");
    var s2 := ReplaceAll(s1, '<', "&lt;");
    var s3 := ReplaceAll(s2, '>', "&gt;");
    var s4 := ReplaceAll(s3, '"', "&quot;");
    ReplaceAll(s4, '\'', "&#39;")
  }

  // ----- a reference definition: one character at a time -----

  /** The replacement of one character. */
  function EscapeChar(c: char): string {
    match c
    case '&' => "&amp;"
    case '<' => "&lt;"
    case '>' => "&gt;"
    case '"' => "&quot;"
    case '\'' => "&#39;"
    case _ => [c]
  }

  /** Every character replaced by its escape, left to right. */
  function EscapeEach(s: string): string {
    if s == [] then [] else EscapeChar(s[0]) + EscapeEach(s[1..])
  }

  lemma {:induction false} ReplaceAllAppend(a: string, b: string, c: char, rep: string)
    ensures ReplaceAll(a + b, c, rep) == ReplaceAll(a, c, rep) + ReplaceAll(b, c, rep)
  {
    if a != [] {
      assert (a + b)[1..] == a[1..] + b;
      ReplaceAllAppend(a[1..], b, c, rep);
    } else {
      assert a + b == b;
    }
  }

  lemma {:induction false} ReplaceAllAbsent(s: string, c: char, rep: string)
    requires c !in s
    ensures ReplaceAll(s, c, rep) == s
  {
    if s != [] {
      ReplaceAllAbsent(s[1..], c, rep);
    }
  }

  lemma ReplaceAllSingle(x: char, c: char, rep: string)
    ensures ReplaceAll([x], c, rep) == if x == c then rep else [x]
  {
    assert [x][1..] == [];
  }

  lemma EscapeHtmlAppend(a: string, b: string)
    ensures EscapeHtml(a + b) == EscapeHtml(a) + EscapeHtml(b)
  {
    var a1, b1 := ReplaceAll(a, '&', "&amp;"), ReplaceAll(b, '&', "&amp;");
    ReplaceAllAppend(a, b, '&', "&amp;");
    var a2, b2 := ReplaceAll(a1, '<', "&lt;"), ReplaceAll(b1, '<', "&lt;");
    ReplaceAllAppend(a1, b1, '<', "&lt;");
    var a3, b3 := ReplaceAll(a2, '>', "&gt;"), ReplaceAll(b2, '>', "&gt;");
    ReplaceAllAppend(a2, b2, '>', "&gt;");
    var a4, b4 := ReplaceAll(a3, '"', "&quot;"), ReplaceAll(b3, '"', "&quot;");
    ReplaceAllAppend(a3, b3, '"', "&quot;");
    ReplaceAllAppend(a4, b4, '\'', "&#39;");
  }

  /** One character through the five passes: only the pass for that character changes it. */
  lemma EscapeHtmlChar(x: char)
    ensures EscapeHtml([x]) == EscapeChar(x)
  {
    var s1 := ReplaceAll([x], '&', "&amp;");
    ReplaceAllSingle(x, '&', "&amp;");
    if x == '&' {
      EntitiesInert();
      InertPasses(s1);
      return;
    }
    assert s1 == [x];
    var s2 := ReplaceAll(s1, '<', "&lt;");
    ReplaceAllSingle(x, '<', "&lt;");
    if x == '<' {
      EntitiesInert();
      InertPasses(s2);
      return;
    }
    assert s2 == [x];
    var s3 := ReplaceAll(s2, '>', "&gt;");
    ReplaceAllSingle(x, '>', "&gt;");
    if x == '>' {
      EntitiesInert();
      InertPasses(s3);
      return;
    }
    assert s3 == [x];
    var s4 := ReplaceAll(s3, '"', "&quot;");
    ReplaceAllSingle(x, '"', "&quot;");
    ReplaceAllSingle(x, '\'', "&#39;");
    if x == '"' {
      EntitiesInert();
      InertPasses(s4);
    }
  }

  /** `e` holds none of the characters the `<`, `>`, `"` and `'` passes replace. */
  predicate Inert(e: string) {
    '<' !in e && '>' !in e && '"' !in e && '\'' !in e
  }

  lemma EntitiesInert()
    ensures Inert("&amp;") && Inert("&lt;") && Inert("&gt;") && Inert("&quot;")
  {
  }

  /** An inert text goes through the passes after the first unchanged. */
  lemma InertPasses(e: string)
    requires Inert(e)
    ensures ReplaceAll(ReplaceAll(ReplaceAll(ReplaceAll(e, '<', "&lt;"), '>', "&gt;"), '"', "&quot;"), '\'', "&#39;") == e
    ensures ReplaceAll(ReplaceAll(ReplaceAll(e, '>', "&gt;"), '"', "&quot;"), '\'', "&#39;") == e
    ensures ReplaceAll(ReplaceAll(e, '"', "&quot;"), '\'', "&#39;") == e
    ensures ReplaceAll(e, '\'', "&#39;") == e
  {
    ReplaceAllAbsent(e, '<', "&lt;");
    ReplaceAllAbsent(e, '>', "&gt;");
    ReplaceAllAbsent(e, '"', "&quot;");
    ReplaceAllAbsent(e, '\'', "&#39;");
  }

  /** The five passes, ampersand first, escape each character exactly once. */
  lemma {:induction false} EscapeHtmlIsPerChar(s: string)
    ensures EscapeHtml(s) == EscapeEach(s)
  {
    if s == [] {
    } else {
      assert s == [s[0]] + s[1..];
      EscapeHtmlAppend([s[0]], s[1..]);
      EscapeHtmlChar(s[0]);
      EscapeHtmlIsPerChar(s[1..]);
    }
  }

  // ----- every ampersand of the output starts an entity -----

  predicate HasPrefix(s: string, p: string) {
    |p| <= |s| && s[..|p|] == p
  }

  /** `s` begins with one of the five entities `escapeHTML` writes. */
  predicate StartsWithEntity(s: string) {
    HasPrefix(s, "&amp;") || HasPrefix(s, "&lt;") || HasPrefix(s, "&gt;") ||
    HasPrefix(s, "&quot;") || HasPrefix(s, "&#39;")
  }

  predicate AmpersandsStartEntities(r: string) {
    forall i :: 0 <= i < |r| && r[i] == '&' ==> StartsWithEntity(r[i..])
  }

  lemma {:induction false} EscapeEachAmpersands(s: string)
    ensures AmpersandsStartEntities(EscapeEach(s))
  {
    if s != [] {
      var e, t := EscapeChar(s[0]), EscapeEach(s[1..]);
      EscapeEachAmpersands(s[1..]);
      var r := e + t;
      forall i | 0 <= i < |r| && r[i] == '&'
        ensures StartsWithEntity(r[i..])
      {
        if i < |e| {
          assert i == 0;
          assert r[..|e|] == e;
        } else {
          assert r[i..] == t[i - |e|..];
          assert t[i - |e|] == '&';
        }
      }
    }
  }

  /** The output of `escapeHTML` has no `<`, `>`, `"` or `'`, and each `&` in it starts an entity. */
  lemma EscapeHtmlIsSafe(s: string)
    ensures var r := EscapeHtml(s);
      '<' !in r && '>' !in r && '"' !in r && '\'' !in r && AmpersandsStartEntities(r)
  {
    EscapeHtmlIsPerChar(s);
    EscapeEachAmpersands(s);
  }

  // ----- the inverse: decoding the five entities gives the text back -----

  /** Replaces each of the five entities by its character, scanning left to right. */
  function Unescape(s: string): string {
    if s == [] then []
    else if HasPrefix(s, "&amp;") then "&" + Unescape(s[5..])
    else if HasPrefix(s, "&lt;") then "<" + Unescape(s[4..])
    else if HasPrefix(s, "&gt;") then ">" + Unescape(s[4..])
    else if HasPrefix(s, "&quot;") then "\"" + Unescape(s[6..])
    else if HasPrefix(s, "&#39;") then "'" + Unescape(s[5..])
    else [s[0]] + Unescape(s[1..])
  }

  lemma UnescapeStep(x: char, t: string)
    ensures Unescape(EscapeChar(x) + t) == [x] + Unescape(t)
  {
    match x
    case '&' => UnescapeEntity("&amp;", "&", t);
    case '<' => UnescapeEntity("&lt;", "<", t);
    case '>' => UnescapeEntity("&gt;", ">", t);
    case '"' => UnescapeEntity("&quot;", "\"", t);
    case '\'' => UnescapeEntity("&#39;", "'", t);
    case _ =>
      var r := [x] + t;
      assert r[0] == x && r[1..] == t;
  }

  /** An entity at the front decodes to its character; the rest decodes on its own. */
  lemma UnescapeEntity(e: string, c: string, t: string)
    requires (e, c) in {("&amp;", "&"), ("&lt;", "<"), ("&gt;", ">"), ("&quot;", "\""), ("&#39;", "'")}
    ensures Unescape(e + t) == c + Unescape(t)
  {
    var r := e + t;
    assert r[..|e|] == e && r[|e|..] == t;
    assert r[0] == '&' && r[1] == e[1];
    if e == "&amp;" {
      assert HasPrefix(r, "&amp;");
    } else if e == "&lt;" {
      assert !HasPrefix(r, "&amp;");
      assert HasPrefix(r, "&lt;");
    } else if e == "&gt;" {
      assert !HasPrefix(r, "&amp;") && !HasPrefix(r, "&lt;");
      assert HasPrefix(r, "&gt;");
    } else if e == "&quot;" {
      assert !HasPrefix(r, "&amp;") && !HasPrefix(r, "&lt;") && !HasPrefix(r, "&gt;");
      assert HasPrefix(r, "&quot;");
    } else {
      assert !HasPrefix(r, "&amp;") && !HasPrefix(r, "&lt;") && !HasPrefix(r, "&gt;") && !HasPrefix(r, "&quot;");
      assert HasPrefix(r, "&#39;");
    }
  }

  /** Escaping loses nothing: decoding the output of `escapeHTML` gives the input back. */
  lemma {:induction false} UnescapeEscape(s: string)
    ensures Unescape(EscapeHtml(s)) == s
  {
    EscapeHtmlIsPerChar(s);
    UnescapeEscapeEach(s);
  }

  lemma {:induction false} UnescapeEscapeEach(s: string)
    ensures Unescape(EscapeEach(s)) == s
  {
    if s != [] {
      UnescapeStep(s[0], EscapeEach(s[1..]));
      UnescapeEscapeEach(s[1..]);
      assert s == [s[0]] + s[1..];
    }
  }
}

=== FILE: questions.dfy ===
/**
 * Quiz definitions and the session copies built from them: the question type
 * tag (`qType`), the true/false normalizer (`normalizeTF`), the remapping of
 * answer indices through a new option order, and `prepareRandomisedQuiz`.
 */
module Questions {
  import opened Wrappers
  import opened Strings
  import opened Randomization

  /** The three question kinds; every unrecognised type tag is single-choice. */
  datatype Kind = SingleChoice | MultipleChoice | TrueFalse

  /**
   * A question as the catalog gives it. An absent `answerIndexes` is the empty
   * list, and a missing `options` list is the empty list.
   */
  datatype QuestionDef = QuestionDef(
    typeTag: Option<string>,
    text: string,
    options: seq<string>,
    answerIndex: Option<int>,
    answer: Option<bool>,
    answerIndexes: seq<int>)

  datatype QuizDef = QuizDef(id: string, title: string, description: string, questions: seq<QuestionDef>)

  /**
   * The answer key of a session question: single-choice and true/false
   * questions carry `answerIndex`, multiple-choice questions `answerIndexes`.
   */
  datatype Key = SingleKey(answerIndex: int) | MultiKey(answerIndexes: seq<int>)

  /** A question of the running session, options in session order. */
  datatype Question = Question(kind: Kind, text: string, options: seq<string>, key: Key)

  /** The randomized copy of a quiz that the session owns. */
  datatype Quiz = Quiz(id: string, title: string, description: string, questions: seq<Question>)

  const DefaultType: string := "multiple-choice-single"
  const MultipleType: string := "multiple-choice-multiple"
  const TrueFalseType: string := "true-false"

  // ----- qType -----

  /** `(q.type || "multiple-choice-single").toLowerCase()`: an empty tag counts as absent. */
  function QType(tag: Option<string>): (r: string)
    ensures |r| > 0
    ensures forall i :: 0 <= i < |r| ==> !IsUpper(r[i])
    ensures tag.None? || tag == Some("") ==> r == DefaultType
    ensures tag.Some? && tag.value != "" ==>
              |r| == |tag.value| && forall i :: 0 <= i < |r| ==> r[i] == LowerChar(tag.value[i])
  {
    if tag.None? || tag.value == "" then Lower(DefaultType) else Lower(tag.value)
  }

  /** The tag of a session question is already `qType`'d: applying `qType` again changes nothing. */
  lemma QTypeIdempotent(tag: Option<string>)
    ensures QType(Some(QType(tag))) == QType(tag)
  {
    if tag.None? || tag.value == "" {
      LowerIdempotent(DefaultType);
    } else {
      LowerIdempotent(tag.value);
    }
  }

  /**
   * The kind a type tag selects: multiple choice or true/false exactly when
   * the lower-cased tag is `multiple-choice-multiple` or `true-false`; any
   * other tag, and a missing one, is single choice.
   */
  function KindOf(tag: Option<string>): (k: Kind)
    ensures k == MultipleChoice <==> tag.Some? && Lower(tag.value) == MultipleType
    ensures k == TrueFalse <==> tag.Some? && Lower(tag.value) == TrueFalseType
  {
    var t := QType(tag);
    if t == MultipleType then MultipleChoice
    else if t == TrueFalseType then TrueFalse
    else SingleChoice
  }

  /** The type tag is read without regard to the case of its ASCII letters. */
  lemma KindOfIgnoresCase(t1: string, t2: string)
    requires Lower(t1) == Lower(t2)
    ensures KindOf(Some(t1)) == KindOf(Some(t2))
  {
  }

  // ----- indexOf -----

  /** `s.indexOf(x)`: the first position of `x` in `s`, or -1. */
  function IndexOf<T(==)>(s: seq<T>, x: T): (r: int)
    ensures -1 <= r < |s|
    ensures r == -1 <==> x !in s
    ensures r >= 0 ==> s[r] == x && forall k :: 0 <= k < r ==> s[k] != x
  {
    if |s| == 0 then -1
    else if s[0] == x then 0
    else
      var r := IndexOf(s[1..], x);
      if r == -1 then -1 else r + 1
  }

  // ----- normalizeTF -----

  function BoolText(b: bool): string {
    if b then "true" else "false"
  }

  /** Each option in the form `String(o).trim().toLowerCase()`. */
  function Canonicals(options: seq<string>): (r: seq<string>)
    ensures |r| == |options| && forall k :: 0 <= k < |r| ==> r[k] == Canon(options[k])
  {
    seq(|options|, k requires 0 <= k < |options| => Canon(options[k]))
  }

  /**
   * The answer index derived from a boolean `answer`: the first option that
   * reads "true" (resp. "false") after trimming and lower-casing, else 0 (resp. 1).
   */
  predicate DerivedFromBool(options: seq<string>, b: bool, i: int) {
    if BoolText(b) in Canonicals(options) then
      0 <= i < |options| && Canon(options[i]) == BoolText(b) &&
      forall k :: 0 <= k < i ==> Canon(options[k]) != BoolText(b)
    else
      i == (if b then 0 else 1)
  }

  /**
   * The answer index a boolean `answer` selects: `options.findIndex` of the
   * option reading "true" (resp. "false"), falling back to 0 (resp. 1).
   */
  function BoolAnswerIndex(options: seq<string>, b: bool): (i: int)
    ensures DerivedFromBool(options, b, i)
    ensures |options| == 2 ==> 0 <= i < 2
  {
    var found := IndexOf(Canonicals(options), BoolText(b));
    if found != -1 then found else if b then 0 else 1
  }

  /** `normalizeTF(q)`: fixes the two options and resolves `answerIndex`. */
  function NormalizeTF(q: QuestionDef): (r: QuestionDef)
    ensures r.options == (if |q.options| == 2 then q.options else ["True", "False"])
    ensures r.answerIndex.Some?
    ensures r == q.(options := r.options, answerIndex := r.answerIndex)
    ensures q.answerIndex.Some? ==> r.answerIndex == q.answerIndex
    ensures q.answerIndex.None? && q.answer.Some? ==>
              0 <= r.answerIndex.value < 2 && DerivedFromBool(r.options, q.answer.value, r.answerIndex.value)
    ensures q.answerIndex.None? && q.answer.None? ==> r.answerIndex == Some(0)
  {
    var options: seq<string> := if |q.options| == 2 then q.options else ["True", "False"];
    var answerIndex :=
      if q.answerIndex.Some? then q.answerIndex.value
      else if q.answer.Some? then BoolAnswerIndex(options, q.answer.value)
      else 0;
    q.(options := options, answerIndex := Some(answerIndex))
  }

  /** A true/false question with `answer: true` and no usable options gets `answerIndex` 0, the option "True". */
  lemma NormalizeDefaultTrue(q: QuestionDef)
    requires |q.options| != 2 && q.answerIndex.None? && q.answer == Some(true)
    ensures NormalizeTF(q).options == ["True", "False"]
    ensures NormalizeTF(q).answerIndex == Some(0)
    ensures NormalizeTF(q).options[0] == "True"
  {
    var options: seq<string> := ["True", "False"];
    CanonTrueFalse();
    assert Canonicals(options)[0] == "true";
  }

  /** ... and with `answer: false` it gets `answerIndex` 1, the option "False". */
  lemma NormalizeDefaultFalse(q: QuestionDef)
    requires |q.options| != 2 && q.answerIndex.None? && q.answer == Some(false)
    ensures NormalizeTF(q).answerIndex == Some(1)
    ensures NormalizeTF(q).options[1] == "False"
  {
    var options: seq<string> := ["True", "False"];
    CanonTrueFalse();
    assert Canonicals(options)[0] == "true";
    assert Canonicals(options)[1] == "false";
  }

  // ----- the canonical form of a definition, before its options are permuted -----

  /**
   * `base` of `prepareRandomisedQuiz` with its answer read the way the
   * remapping reads it: `answerIndexes` (multiple choice) or `answerIndex ?? 0`.
   */
  function Canonical(raw: QuestionDef): (q: Question)
    ensures q.kind == KindOf(raw.typeTag) && q.text == raw.text
    ensures q.kind == MultipleChoice <==> q.key.MultiKey?
    ensures q.kind == MultipleChoice ==> q.options == raw.options && q.key.answerIndexes == raw.answerIndexes
    ensures q.kind == SingleChoice ==> q.options == raw.options && q.key == SingleKey(raw.answerIndex.GetOr(0))
    ensures q.kind == TrueFalse ==> |q.options| == 2 && q.key.SingleKey?
    ensures q.kind == TrueFalse && raw.answerIndex.None? ==> 0 <= q.key.answerIndex < 2
    ensures q.kind == TrueFalse ==>
              q.options == NormalizeTF(raw).options && q.key == SingleKey(NormalizeTF(raw).answerIndex.value)
  {
    var kind := KindOf(raw.typeTag);
    var base := if kind == TrueFalse then NormalizeTF(raw) else raw;
    var key := if kind == MultipleChoice then MultiKey(base.answerIndexes) else SingleKey(base.answerIndex.GetOr(0));
    Question(kind, base.text, base.options, key)
  }

  // ----- remapping answer indices through a new option order -----

  predicate IsSorted(s: seq<int>) {
    forall i, j :: 0 <= i < j < |s| ==> s[i] <= s[j]
  }

  function Insert(x: int, s: seq<int>): (r: seq<int>)
    requires IsSorted(s)
    ensures IsSorted(r) && multiset(r) == multiset(s) + multiset{x}
  {
    if s == [] then [x]
    else if x <= s[0] then [x] + s
    else
      var t := Insert(x, s[1..]);
      assert s == [s[0]] + s[1..];
      InsertAboveHead(s[0], x, s[1..], t);
      [s[0]] + t
  }

  lemma InsertAboveHead(h: int, x: int, s: seq<int>, t: seq<int>)
    requires IsSorted([h] + s) && h < x
    requires IsSorted(t) && multiset(t) == multiset(s) + multiset{x}
    ensures IsSorted([h] + t)
  {
    var r := [h] + t;
    forall i, j | 0 <= i < j < |r|
      ensures r[i] <= r[j]
    {
      if i == 0 {
        assert r[j] in multiset(t);
        if r[j] != x {
          assert r[j] in multiset(s);
          var k :| 0 <= k < |s| && s[k] == r[j];
          var hs := [h] + s;
          assert hs[0] == h && hs[k + 1] == r[j];
          assert hs[0] <= hs[k + 1];
        }
      } else {
        assert r[i] == t[i - 1] && r[j] == t[j - 1];
      }
    }
  }

  /** `xs.sort((a, b) => a - b)`: ascending numeric order, same elements. */
  function SortAscending(xs: seq<int>): (r: seq<int>)
    ensures IsSorted(r) && multiset(r) == multiset(xs)
  {
    if xs == [] then []
    else
      assert xs == [xs[0]] + xs[1..];
      Insert(xs[0], SortAscending(xs[1..]))
  }

  /** `xs.filter(x => x >= 0)`. */
  function KeepNonNegative(xs: seq<int>): (r: seq<int>)
    ensures |r| <= |xs|
    ensures forall x :: x in r <==> x in xs && x >= 0
    ensures forall x :: multiset(r)[x] == if x >= 0 then multiset(xs)[x] else 0
  {
    if xs == [] then []
    else
      assert xs == [xs[0]] + xs[1..];
      if xs[0] >= 0 then [xs[0]] + KeepNonNegative(xs[1..])
      else KeepNonNegative(xs[1..])
  }

  /** `src.map(ai => p.indexOf(ai))`. */
  function MappedIndexes(p: seq<int>, src: seq<int>): (r: seq<int>)
    ensures |r| == |src| && forall k :: 0 <= k < |src| ==> r[k] == IndexOf(p, src[k])
  {
    seq(|src|, k requires 0 <= k < |src| => IndexOf(p, src[k]))
  }

  /** Position `x` of `p` holds the first occurrence of its value. */
  predicate FirstOccurrence(p: seq<int>, x: int) {
    0 <= x < |p| && forall k :: 0 <= k < x ==> p[k] != p[x]
  }

  /**
   * `src.map(ai => p.indexOf(ai)).filter(x => x >= 0).sort((a, b) => a - b)`:
   * sorted, no longer than `src`, and holding exactly the positions of `p`
   * where a value of `src` first occurs.
   */
  function RemapIndexes(p: seq<int>, src: seq<int>): (r: seq<int>)
    ensures IsSorted(r) && |r| <= |src|
    ensures forall x :: x in r <==> FirstOccurrence(p, x) && p[x] in src
  {
    var kept := KeepNonNegative(MappedIndexes(p, src));
    KeptIndexes(p, src);
    var r := SortAscending(kept);
    assert |r| == |multiset(r)| == |multiset(kept)| == |kept|;
    assert forall x :: x in r <==> x in multiset(r);
    r
  }

  lemma KeptIndexes(p: seq<int>, src: seq<int>)
    ensures forall x :: x in KeepNonNegative(MappedIndexes(p, src)) <==> FirstOccurrence(p, x) && p[x] in src
  {
    var mapped := MappedIndexes(p, src);
    forall x
      ensures x in KeepNonNegative(mapped) <==> FirstOccurrence(p, x) && p[x] in src
    {
      if x in mapped && x >= 0 {
        var k :| 0 <= k < |mapped| && mapped[k] == x;
      }
      if FirstOccurrence(p, x) && p[x] in src {
        var k :| 0 <= k < |src| && src[k] == p[x];
        assert mapped[k] == x;
      }
    }
  }

  /** `q.answerIndexes || []`. */
  function KeyIndexes(key: Key): seq<int> {
    match key
    case MultiKey(xs) => xs
    case SingleKey(_) => []
  }

  /**
   * The question with its options in the order `p` and its answer key
   * remapped: what `prepareRandomisedQuiz` and `reshuffleQuestionAt` build
   * once the option order `p` is drawn. A question that is not multiple
   * choice but carries a list key (which `Canonical` never builds) has no
   * `answerIndex`, and `indexOf(undefined)` gives -1.
   */
  function Remapped(q: Question, p: seq<int>): (r: Question)
    requires IsIndexPermutation(p, |q.options|)
    ensures r.kind == q.kind && r.text == q.text
    ensures r.options == Gather(q.options, p)
    ensures r.kind == MultipleChoice <==> r.key.MultiKey?
  {
    var key :=
      if q.kind == MultipleChoice then MultiKey(RemapIndexes(p, KeyIndexes(q.key)))
      else SingleKey(match q.key case SingleKey(a) => IndexOf(p, a) case MultiKey(_) => -1);
    Question(q.kind, q.text, Gather(q.options, p), key)
  }

  /** Where an original option index lands in the order `p`. */
  lemma IndexOfPermutation(p: seq<int>, n: nat, a: int)
    requires IsIndexPermutation(p, n)
    ensures 0 <= a < n ==> 0 <= IndexOf(p, a) < n && p[IndexOf(p, a)] == a
    ensures !(0 <= a < n) ==> IndexOf(p, a) == -1
  {
    if !(0 <= a < n) {
      assert forall k :: 0 <= k < |p| ==> p[k] != a;
    }
  }

  /**
   * Single-choice and true/false: a valid answer index is remapped to a valid
   * index that names the same option text; an invalid one becomes -1.
   */
  lemma RemapKeepsSingleAnswer(q: Question, p: seq<int>)
    requires IsIndexPermutation(p, |q.options|)
    requires q.kind != MultipleChoice && q.key.SingleKey?
    ensures Remapped(q, p).key.SingleKey?
    ensures var a, b := q.key.answerIndex, Remapped(q, p).key.answerIndex;
      && (0 <= a < |q.options| <==> 0 <= b)
      && (0 <= a < |q.options| ==> b < |q.options| && Remapped(q, p).options[b] == q.options[a])
      && (!(0 <= a < |q.options|) ==> b == -1)
  {
    IndexOfPermutation(p, |q.options|, q.key.answerIndex);
  }

  /**
   * Multiple choice: the remapped indexes are sorted, each is a valid index
   * whose option was a correct option before, and every valid correct index
   * of before has its image among them.
   */
  lemma RemapKeepsMultiAnswer(q: Question, p: seq<int>)
    requires IsIndexPermutation(p, |q.options|)
    requires q.kind == MultipleChoice
    ensures var r := Remapped(q, p);
      && r.key.MultiKey?
      && IsSorted(r.key.answerIndexes)
      && (forall x :: x in r.key.answerIndexes <==> 0 <= x < |q.options| && p[x] in KeyIndexes(q.key))
      && (forall x :: x in r.key.answerIndexes ==> r.options[x] == q.options[p[x]])
      && (forall a :: a in KeyIndexes(q.key) && 0 <= a < |q.options| ==>
            IndexOf(p, a) in r.key.answerIndexes && r.options[IndexOf(p, a)] == q.options[a])
  {
    var n := |q.options|;
    var src := KeyIndexes(q.key);
    var r := Remapped(q, p);
    assert r.key.answerIndexes == RemapIndexes(p, src);
    forall x | 0 <= x < n
      ensures FirstOccurrence(p, x)
    {
    }
    forall a | a in src && 0 <= a < n
      ensures IndexOf(p, a) in r.key.answerIndexes
    {
      IndexOfPermutation(p, n, a);
    }
  }

  /** A question whose answer key only names existing options. */
  predicate KeyValid(q: Question) {
    match q.key
    case SingleKey(a) => 0 <= a < |q.options|
    case MultiKey(xs) => forall x :: x in xs ==> 0 <= x < |q.options|
  }

  /** Remapping keeps a valid key valid; a multiple-choice key is always valid after it. */
  lemma RemapKeepsKeyValid(q: Question, p: seq<int>)
    requires IsIndexPermutation(p, |q.options|)
    requires q.key.SingleKey? <==> q.kind != MultipleChoice
    ensures KeyValid(q) ==> KeyValid(Remapped(q, p))
    ensures q.kind == MultipleChoice ==> KeyValid(Remapped(q, p))
  {
    if q.kind == MultipleChoice {
      RemapKeepsMultiAnswer(q, p);
    } else {
      RemapKeepsSingleAnswer(q, p);
    }
  }

  // ----- prepareRandomisedQuiz -----

  /**
   * One session question from a definition, with option draws `js`: same
   * kind and text, and options `shuffle(base.options)`, a permutation of them.
   */
  function RandomisedQuestion(raw: QuestionDef, js: seq<nat>): (q: Question)
    requires ValidSwaps(js, |Canonical(raw).options|)
    ensures q.kind == KindOf(raw.typeTag) && q.text == raw.text
    ensures q.options == Shuffled(Canonical(raw).options, js)
    ensures multiset(q.options) == multiset(Canonical(raw).options)
  {
    GatherIndexShuffle(Canonical(raw).options, js);
    Remapped(Canonical(raw), IndexShuffle(|Canonical(raw).options|, js))
  }

  /**
   * The random draws of one quiz start: the swaps for the question order, and
   * for each question of the definition the swaps for its option order.
   */
  datatype Draws = Draws(order: seq<nat>, options: seq<seq<nat>>)

  predicate ValidDraws(quiz: QuizDef, d: Draws) {
    && ValidSwaps(d.order, |quiz.questions|)
    && |d.options| == |quiz.questions|
    && forall i :: 0 <= i < |quiz.questions| ==> ValidSwaps(d.options[i], |Canonical(quiz.questions[i]).options|)
  }

  /** `shuffle(quiz.questions.map((_, i) => i))`: which definition sits at each session position. */
  function QuestionOrder(quiz: QuizDef, d: Draws): (order: seq<int>)
    requires ValidDraws(quiz, d)
    ensures IsIndexPermutation(order, |quiz.questions|)
  {
    IndexShuffle(|quiz.questions|, d.order)
  }

  /** `prepareRandomisedQuiz(quiz)`. */
  function PrepareRandomisedQuiz(quiz: QuizDef, d: Draws): (r: Quiz)
    requires ValidDraws(quiz, d)
    ensures r.id == quiz.id && r.title == quiz.title && r.description == quiz.description
    ensures |r.questions| == |quiz.questions|
  {
    var order := QuestionOrder(quiz, d);
    Quiz(quiz.id, quiz.title, quiz.description,
         seq(|order|, k requires 0 <= k < |order| =>
           RandomisedQuestion(quiz.questions[order[k]], d.options[order[k]])))
  }

  /**
   * A question whose options are shuffled with draws `js` keeps its kind and
   * text, gets a permutation of its options, and its answer key still names
   * the same option texts: what `prepareRandomisedQuiz` does to each question
   * and `reshuffleQuestionAt` does to one.
   */
  lemma ReshuffledQuestion(q: Question, js: seq<nat>)
    requires ValidSwaps(js, |q.options|)
    requires q.key.SingleKey? <==> q.kind != MultipleChoice
    ensures var r := Remapped(q, IndexShuffle(|q.options|, js));
      && r.kind == q.kind && r.text == q.text
      && r.options == Shuffled(q.options, js) && multiset(r.options) == multiset(q.options)
      && (KeyValid(q) ==> KeyValid(r))
      && (r.kind == MultipleChoice ==> KeyValid(r))
      && (r.key.SingleKey? && KeyValid(q) ==> r.options[r.key.answerIndex] == q.options[q.key.answerIndex])
      && (r.key.MultiKey? ==> IsSorted(r.key.answerIndexes))
      && (r.key.MultiKey? ==> forall x :: x in r.key.answerIndexes ==>
            exists a :: a in KeyIndexes(q.key) && 0 <= a < |q.options| && q.options[a] == r.options[x])
      && (r.key.MultiKey? ==> forall a :: a in KeyIndexes(q.key) && 0 <= a < |q.options| ==>
            exists x :: x in r.key.answerIndexes && r.options[x] == q.options[a])
  {
    var p := IndexShuffle(|q.options|, js);
    var r := Remapped(q, p);
    GatherIndexShuffle(q.options, js);
    RemapKeepsKeyValid(q, p);
    if q.kind == MultipleChoice {
      RemapKeepsMultiAnswer(q, p);
      forall x | x in r.key.answerIndexes
        ensures exists a :: a in KeyIndexes(q.key) && 0 <= a < |q.options| && q.options[a] == r.options[x]
      {
        assert p[x] in KeyIndexes(q.key) && q.options[p[x]] == r.options[x];
      }
      forall a | a in KeyIndexes(q.key) && 0 <= a < |q.options|
        ensures exists x :: x in r.key.answerIndexes && r.options[x] == q.options[a]
      {
        assert IndexOf(p, a) in r.key.answerIndexes;
      }
    } else {
      RemapKeepsSingleAnswer(q, p);
    }
  }

  /**
   * Session position `k` holds definition `QuestionOrder(quiz, d)[k]` (each
   * definition exactly once), with the same kind and text, a permutation of
   * its options, and an answer key that still names the same option text.
   */
  lemma PreparedQuestionAt(quiz: QuizDef, d: Draws, k: nat)
    requires ValidDraws(quiz, d) && k < |quiz.questions|
    ensures var o := QuestionOrder(quiz, d)[k];
      var q, base := PrepareRandomisedQuiz(quiz, d).questions[k], Canonical(quiz.questions[o]);
      && 0 <= o < |quiz.questions|
      && q.kind == KindOf(quiz.questions[o].typeTag) && q.text == quiz.questions[o].text
      && multiset(q.options) == multiset(base.options)
      && (KeyValid(base) ==> KeyValid(q))
      && (q.kind == MultipleChoice ==> KeyValid(q))
      && (q.key.SingleKey? && KeyValid(base) ==> q.options[q.key.answerIndex] == base.options[base.key.answerIndex])
      && (q.key.MultiKey? ==> IsSorted(q.key.answerIndexes))
      && (q.key.MultiKey? ==> forall x :: x in q.key.answerIndexes ==>
            exists a :: a in KeyIndexes(base.key) && 0 <= a < |base.options| && base.options[a] == q.options[x])
      && (q.key.MultiKey? ==> forall a :: a in KeyIndexes(base.key) && 0 <= a < |base.options| ==>
            exists x :: x in q.key.answerIndexes && q.options[x] == base.options[a])
  {
    var o := QuestionOrder(quiz, d)[k];
    var base := Canonical(quiz.questions[o]);
    assert PrepareRandomisedQuiz(quiz, d).questions[k] == Remapped(base, IndexShuffle(|base.options|, d.options[o]));
    ReshuffledQuestion(base, d.options[o]);
  }
}

=== FILE: randomization.dfy ===
/**
 * The randomization engine: `shuffle` is a Fisher-Yates pass over a copy of
 * its input. The random draw `Math.floor(Math.random() * (i + 1))` made at
 * step `i` is an input here: `js[i]`, a swap partner with `js[i] <= i`.
 * `js[0]` is never read, because the loop stops before step 0.
 */
module Randomization {

  /** The swap choices for one shuffle of a sequence of length `n`. */
  predicate ValidSwaps(js: seq<nat>, n: nat) {
    |js| == n && forall i :: 0 < i < n ==> js[i] <= i
  }

  /** `s` with the elements at `i` and `j` exchanged. */
  function SwapAt<T>(s: seq<T>, i: nat, j: nat): (r: seq<T>)
    requires i < |s| && j < |s|
    ensures |r| == |s| && r[i] == s[j] && r[j] == s[i]
    ensures forall k :: 0 <= k < |s| && k != i && k != j ==> r[k] == s[k]
  {
    s[i := s[j]][j := s[i]]
  }

  /** The state after the loop has run its steps `i`, `i - 1`, ..., `1` on `s`. */
  function Steps<T>(s: seq<T>, js: seq<nat>, i: nat): seq<T>
    requires ValidSwaps(js, |s|) && i < |s|
    decreases i
  {
    if i == 0 then s else Steps(SwapAt(s, i, js[i]), js, i - 1)
  }

  /** What `shuffle(s)` returns when its draws are `js`. */
  function Shuffled<T>(s: seq<T>, js: seq<nat>): seq<T>
    requires ValidSwaps(js, |s|)
  {
    if |s| == 0 then s else Steps(s, js, |s| - 1)
  }

  /**
   * `shuffle(arr)`: copies `arr` into a fresh array and swaps from the last
   * index down to 1. The input is a value, so it cannot change.
   */
  method Shuffle<T>(arr: seq<T>, js: seq<nat>) returns (r: seq<T>)
    requires ValidSwaps(js, |arr|)
    ensures r == Shuffled(arr, js)
    ensures |r| == |arr| && multiset(r) == multiset(arr)
  {
    var a := new T[|arr|](k requires 0 <= k < |arr| => arr[k]);
    var i := |arr| - 1;
    assert a[..] == arr;
    while i > 0
      invariant -1 <= i < |arr|
      invariant i == -1 ==> |arr| == 0
      invariant a.Length == |arr|
      invariant i >= 0 ==> Steps(a[..], js, i) == Shuffled(arr, js)
    {
      var j := js[i];
      a[i], a[j] := a[j], a[i];
      i := i - 1;
    }
    r := a[..];
    ShuffledIsPermutation(arr, js);
  }

  lemma SwapMultiset<T>(s: seq<T>, i: nat, j: nat)
    requires i < |s| && j < |s|
    ensures multiset(SwapAt(s, i, j)) == multiset(s)
  {
    var t := s[i := s[j]];
    assert multiset(t) == multiset(s) - multiset{s[i]} + multiset{s[j]};
  }

  lemma {:induction false} StepsIsPermutation<T>(s: seq<T>, js: seq<nat>, i: nat)
    requires ValidSwaps(js, |s|) && i < |s|
    ensures |Steps(s, js, i)| == |s|
    ensures multiset(Steps(s, js, i)) == multiset(s)
    decreases i
  {
    if i > 0 {
      SwapMultiset(s, i, js[i]);
      StepsIsPermutation(SwapAt(s, i, js[i]), js, i - 1);
    }
  }

  /** A shuffle is a permutation of its input: same length, same multiset. */
  lemma ShuffledIsPermutation<T>(s: seq<T>, js: seq<nat>)
    requires ValidSwaps(js, |s|)
    ensures |Shuffled(s, js)| == |s|
    ensures multiset(Shuffled(s, js)) == multiset(s)
  {
    if |s| > 0 {
      StepsIsPermutation(s, js, |s| - 1);
    }
  }

  // ----- index permutations: shuffles of [0, n) -----

  /** `[0, 1, ..., n - 1]`, as built by `xs.map((_, i) => i)`. */
  function Range(n: nat): (r: seq<int>)
    ensures |r| == n && forall k :: 0 <= k < n ==> r[k] == k
  {
    seq(n, k requires 0 <= k < n => k)
  }

  lemma RangeIsIndexPermutation(n: nat)
    ensures IsIndexPermutation(Range(n), n)
  {
    forall a | 0 <= a < n
      ensures a in Range(n)
    {
      assert Range(n)[a] == a;
    }
  }

  /** `p` lists each of `0 .. n - 1` exactly once. */
  predicate IsIndexPermutation(p: seq<int>, n: nat) {
    && |p| == n
    && (forall k :: 0 <= k < n ==> 0 <= p[k] < n)
    && (forall k, l :: 0 <= k < l < n ==> p[k] != p[l])
    && (forall a :: 0 <= a < n ==> a in p)
  }

  lemma SwapKeepsIndexPermutation(p: seq<int>, n: nat, i: nat, j: nat)
    requires IsIndexPermutation(p, n) && i < n && j < n
    ensures IsIndexPermutation(SwapAt(p, i, j), n)
  {
    var q := SwapAt(p, i, j);
    forall a | 0 <= a < n
      ensures a in q
    {
      assert a in p;
      var k :| 0 <= k < |p| && p[k] == a;
      if k == i {
        assert q[j] == a;
      } else if k == j {
        assert q[i] == a;
      } else {
        assert q[k] == a;
      }
    }
  }

  lemma {:induction false} StepsKeepIndexPermutation(p: seq<int>, n: nat, js: seq<nat>, i: nat)
    requires IsIndexPermutation(p, n) && ValidSwaps(js, n) && i < n
    ensures IsIndexPermutation(Steps(p, js, i), n)
    decreases i
  {
    if i > 0 {
      SwapKeepsIndexPermutation(p, n, i, js[i]);
      StepsKeepIndexPermutation(SwapAt(p, i, js[i]), n, js, i - 1);
    }
  }

  /** `shuffle([0, ..., n - 1])`: the new order of `n` items. */
  function IndexShuffle(n: nat, js: seq<nat>): (p: seq<int>)
    requires ValidSwaps(js, n)
    ensures IsIndexPermutation(p, n)
  {
    RangeIsIndexPermutation(n);
    if n > 0 then StepsKeepIndexPermutation(Range(n), n, js, n - 1); Shuffled(Range(n), js)
    else Shuffled(Range(n), js)
  }

  /** `p.map(j => s[j])`: the elements of `s` in the order `p` names them. */
  function Gather<T>(s: seq<T>, p: seq<int>): (r: seq<T>)
    requires forall k :: 0 <= k < |p| ==> 0 <= p[k] < |s|
    ensures |r| == |p| && forall k :: 0 <= k < |p| ==> r[k] == s[p[k]]
  {
    seq(|p|, k requires 0 <= k < |p| => s[p[k]])
  }

  lemma {:induction false} GatherSteps<T>(s: seq<T>, p: seq<int>, js: seq<nat>, i: nat)
    requires IsIndexPermutation(p, |s|) && ValidSwaps(js, |s|) && i < |s|
    ensures IsIndexPermutation(Steps(p, js, i), |s|)
    ensures Gather(s, Steps(p, js, i)) == Steps(Gather(s, p), js, i)
    decreases i
  {
    StepsKeepIndexPermutation(p, |s|, js, i);
    if i > 0 {
      var p' := SwapAt(p, i, js[i]);
      SwapKeepsIndexPermutation(p, |s|, i, js[i]);
      assert Gather(s, p') == SwapAt(Gather(s, p), i, js[i]);
      GatherSteps(s, p', js, i - 1);
    }
  }

  /**
   * Shuffling the positions `[0, n)` and then reading the items in that order
   * is the same as shuffling the items themselves with the same draws.
   */
  lemma GatherIndexShuffle<T>(s: seq<T>, js: seq<nat>)
    requires ValidSwaps(js, |s|)
    ensures Gather(s, IndexShuffle(|s|, js)) == Shuffled(s, js)
    ensures multiset(Gather(s, IndexShuffle(|s|, js))) == multiset(s)
  {
    if |s| > 0 {
      assert Gather(s, Range(|s|)) == s;
      RangeIsIndexPermutation(|s|);
      GatherSteps(s, Range(|s|), js, |s| - 1);
    }
    ShuffledIsPermutation(s, js);
  }
}

=== FILE: session.dfy ===
/**
 * The session state machine: the `CURRENT` record, `startQuiz`,
 * `reshuffleQuestionAt`, and the bodies of the question view's handlers
 * (select, Check, Show solution, Retry, Previous, Next, Finish) and of the
 * results view's Retry. What the form holds when a handler runs is the
 * `sel` parameter; the draws of `Math.random` are the `js` and `d` parameters.
 */
module SessionState {
  import opened Wrappers
  import opened Randomization
  import opened Questions
  import opened Grading

  /** The score line and the per-question verdicts of the results view. */
  datatype Results = Results(correct: nat, total: nat, percent: Option<nat>, oks: seq<bool>)

  /** `QUIZZES.find(q => q.id === id)`: the first quiz of the catalog with that id. */
  function FindQuiz(catalog: seq<QuizDef>, id: string): (r: Option<QuizDef>)
    ensures r.None? <==> forall k :: 0 <= k < |catalog| ==> catalog[k].id != id
    ensures r.Some? ==> exists k :: 0 <= k < |catalog| && catalog[k] == r.value &&
                          r.value.id == id && forall l :: 0 <= l < k ==> catalog[l].id != id
  {
    if |catalog| == 0 then None
    else if catalog[0].id == id then Some(catalog[0])
    else
      var r := FindQuiz(catalog[1..], id);
      if r.Some? then
        var k :| 0 <= k < |catalog[1..]| && catalog[1..][k] == r.value && r.value.id == id &&
                 forall l :: 0 <= l < k ==> catalog[1..][l].id != id;
        assert catalog[k + 1] == r.value;
        r
      else r
  }

  /** `CURRENT`: the running quiz and its per-question state. */
  class Session {
    var quiz: Option<Quiz>
    var index: int
    var answers: seq<Response>
    var checked: seq<bool>
    var showSolution: seq<bool>

    /** `quiz.questions.length`, 0 before any quiz is started. */
    function Total(): nat
      reads this
    {
      if quiz.None? then 0 else |quiz.value.questions|
    }

    /**
     * The three per-question lists have one entry per question, `index` is a
     * position, and a solution is only ever revealed on a checked question.
     */
    ghost predicate Valid()
      reads this
    {
      && |answers| == Total() && |checked| == Total() && |showSolution| == Total()
      && 0 <= index && (index < Total() || index == 0)
      && (forall i :: 0 <= i < |showSolution| && showSolution[i] ==> checked[i])
    }

    /** A question is on screen: `renderQuiz` has run and its handlers are live. */
    predicate OnQuestion()
      reads this
    {
      quiz.Some? && 0 <= index < |quiz.value.questions|
    }

    function Current(): Question
      reads this
      requires OnQuestion()
    {
      quiz.value.questions[index]
    }

    /** Show solution and Retry are on screen for the current question. */
    predicate ShowsRecovery()
      reads this
      requires Valid() && OnQuestion()
    {
      RecoveryShown(Current(), answers[index], checked[index])
    }

    /** The initial `CURRENT`: no quiz, index 0, empty lists. */
    constructor ()
      ensures Valid()
      ensures quiz == None && index == 0 && answers == [] && checked == [] && showSolution == []
    {
      quiz := None;
      index := 0;
      answers, checked, showSolution := [], [], [];
    }

    /** `startQuiz(def)`: a fresh randomized copy, index 0, nothing answered or checked. */
    method StartQuiz(def: QuizDef, d: Draws)
      requires ValidDraws(def, d)
      modifies this
      ensures Valid()
      ensures quiz == Some(PrepareRandomisedQuiz(def, d)) && index == 0
      ensures Total() == |def.questions|
      ensures |answers| == Total() && forall i :: 0 <= i < Total() ==> answers[i] == NoAnswer
      ensures |checked| == Total() && forall i :: 0 <= i < Total() ==> !checked[i]
      ensures |showSolution| == Total() && forall i :: 0 <= i < Total() ==> !showSolution[i]
    {
      var randomized := PrepareRandomisedQuiz(def, d);
      var n := |randomized.questions|;
      quiz := Some(randomized);
      index := 0;
      answers := seq(n, _ => NoAnswer);
      checked := seq(n, _ => false);
      showSolution := seq(n, _ => false);
    }

    /** A change of the form's inputs: `updateAnswerFromForm()`. */
    method Select(sel: Response)
      requires Valid() && OnQuestion()
      modifies this
      ensures Valid() && OnQuestion()
      ensures quiz == old(quiz) && index == old(index)
      ensures answers == old(answers)[index := sel]
      ensures checked == old(checked) && showSolution == old(showSolution)
    {
      answers := answers[index := sel];
    }

    /**
     * Check: with nothing selected nothing changes (the user is asked to pick
     * an answer); otherwise the selection is stored and the question is
     * checked with its solution hidden.
     */
    method Check(sel: Response) returns (accepted: bool)
      requires Valid() && OnQuestion()
      modifies this
      ensures Valid() && OnQuestion()
      ensures accepted <==> IsAnswered(sel)
      ensures quiz == old(quiz) && index == old(index)
      ensures !accepted ==> answers == old(answers) && checked == old(checked) && showSolution == old(showSolution)
      ensures accepted ==> answers == old(answers)[index := sel]
      ensures accepted ==> checked == old(checked)[index := true]
      ensures accepted ==> showSolution == old(showSolution)[index := false]
      ensures accepted ==> (ShowsRecovery() <==> !IsCorrect(Current(), sel))
    {
      var empty := match sel
        case Choices(xs) => |xs| == 0
        case Choice(_) => false
        case NoAnswer => true;
      if empty {
        return false;
      }
      answers := answers[index := sel];
      checked := checked[index := true];
      showSolution := showSolution[index := false];
      return true;
    }

    /**
     * Show solution: reveals the solution of the current question. The button
     * is only on screen when the question was checked and answered wrongly.
     */
    method ShowSolution()
      requires Valid() && OnQuestion() && ShowsRecovery()
      modifies this
      ensures Valid() && OnQuestion()
      ensures quiz == old(quiz) && index == old(index)
      ensures showSolution == old(showSolution)[index := true]
      ensures answers == old(answers) && checked == old(checked)
    {
      showSolution := showSolution[index := true];
    }

    /**
     * `reshuffleQuestionAt(i)`: question `i` gets a new option order and its
     * answer key follows; every other question is left as it was.
     */
    method ReshuffleQuestionAt(i: int, js: seq<nat>)
      requires Valid() && quiz.Some? && 0 <= i < |quiz.value.questions|
      requires ValidSwaps(js, |quiz.value.questions[i].options|)
      modifies this
      ensures Valid() && quiz.Some?
      ensures var q := old(quiz.value.questions[i]);
        quiz == Some(old(quiz.value).(questions := old(quiz.value.questions)[i := Remapped(q, IndexShuffle(|q.options|, js))]))
      ensures index == old(index) && answers == old(answers)
      ensures checked == old(checked) && showSolution == old(showSolution)
    {
      var q := quiz.value.questions[i];
      var indices := Shuffle(Range(|q.options|), js);
      assert indices == IndexShuffle(|q.options|, js);
      var updated := Remapped(q, indices);
      quiz := Some(quiz.value.(questions := quiz.value.questions[i := updated]));
    }

    /**
     * Retry (of one question): a new option order for it, its answer cleared
     * (`[]` for multiple choice, `null` otherwise) and both flags reset. The
     * button is only on screen when the question was checked and answered wrongly.
     */
    method Retry(js: seq<nat>)
      requires Valid() && OnQuestion() && ShowsRecovery()
      requires ValidSwaps(js, |Current().options|)
      modifies this
      ensures Valid() && OnQuestion() && index == old(index)
      ensures Current() == Remapped(old(Current()), IndexShuffle(|old(Current()).options|, js))
      ensures quiz == Some(old(quiz.value).(questions := old(quiz.value.questions)[index := Current()]))
      ensures Total() == old(Total())
      ensures forall k :: 0 <= k < Total() && k != index ==> quiz.value.questions[k] == old(quiz.value.questions[k])
      ensures answers == old(answers)[index := if Current().kind == MultipleChoice then Choices([]) else NoAnswer]
      ensures checked == old(checked)[index := false]
      ensures showSolution == old(showSolution)[index := false]
      ensures !IsAnswered(answers[index]) && !ShowsRecovery()
    {
      var kind := Current().kind;
      ReshuffleQuestionAt(index, js);
      answers := answers[index := if kind == MultipleChoice then Choices([]) else NoAnswer];
      checked := checked[index := false];
      showSolution := showSolution[index := false];
    }

    /** Previous: one question back, except on the first. */
    method Previous()
      requires Valid() && OnQuestion()
      modifies this
      ensures Valid() && OnQuestion()
      ensures index == if old(index) > 0 then old(index) - 1 else old(index)
      ensures quiz == old(quiz) && answers == old(answers)
      ensures checked == old(checked) && showSolution == old(showSolution)
    {
      if index > 0 {
        index := index - 1;
      }
    }

    /**
     * Next: stores the form's selection, then moves one question on; from
     * the last question it moves to the lowest unanswered one, and stays put
     * when every question is answered.
     */
    method Next(sel: Response)
      requires Valid() && OnQuestion()
      modifies this
      ensures Valid() && OnQuestion()
      ensures answers == old(answers)[old(index) := sel]
      ensures quiz == old(quiz) && checked == old(checked) && showSolution == old(showSolution)
      ensures old(index) < Total() - 1 ==> index == old(index) + 1
      ensures old(index) == Total() - 1 && AllAnswered(answers) ==> index == old(index)
      ensures old(index) == Total() - 1 && !AllAnswered(answers) ==>
                !IsAnswered(answers[index]) && forall k :: 0 <= k < index ==> IsAnswered(answers[k])
    {
      answers := answers[index := sel];
      if index < Total() - 1 {
        index := index + 1;
      } else {
        var i := FirstUnanswered(Total(), answers);
        assert forall k :: 0 <= k < Total() ==> AnswerAt(answers, k) == answers[k];
        if i != -1 {
          index := i;
        }
      }
    }

    /**
     * Finish: the results view's score. The Finish button is only on screen
     * when `FinishShown`, but the scoring itself asks nothing of the state.
     */
    method Finish() returns (r: Results)
      requires Valid() && quiz.Some?
      ensures r.total == Total() && r.correct <= r.total
      ensures r.correct == |CorrectPositions(quiz.value.questions, answers)|
      ensures |r.oks| == Total()
      ensures forall i :: 0 <= i < Total() ==> r.oks[i] == IsCorrect(quiz.value.questions[i], answers[i])
      ensures r.percent == Percentage(r.correct, r.total)
      ensures r.correct == r.total <==> forall i :: 0 <= i < Total() ==> IsCorrect(quiz.value.questions[i], answers[i])
    {
      var correct, oks := Score(quiz.value.questions, answers);
      var total := |quiz.value.questions|;
      r := Results(correct, total, Percentage(correct, total), oks);
    }

    /**
     * Retry (of the whole quiz, from the results view): restarts the quiz of
     * the same id from the catalog; nothing happens when it is gone.
     */
    method RetryQuiz(catalog: seq<QuizDef>, d: Draws)
      requires Valid() && quiz.Some?
      requires FindQuiz(catalog, quiz.value.id).Some? ==> ValidDraws(FindQuiz(catalog, quiz.value.id).value, d)
      modifies this
      ensures Valid()
      ensures var original := FindQuiz(catalog, old(quiz.value.id));
        if original.None? then
          quiz == old(quiz) && index == old(index) && answers == old(answers) &&
          checked == old(checked) && showSolution == old(showSolution)
        else
          quiz == Some(PrepareRandomisedQuiz(original.value, d)) && index == 0 &&
          (forall i :: 0 <= i < Total() ==> answers[i] == NoAnswer && !checked[i] && !showSolution[i])
    {
      var original := FindQuiz(catalog, quiz.value.id);
      if original.None? {
        return;
      }
      StartQuiz(original.value, d);
    }
  }
}

=== FILE: strings.dfy ===
/**
 * The small string operations the quiz engine applies to question data:
 * `toLowerCase` (for the question type tag and the true/false option test)
 * and `trim` (for the true/false option test). Only ASCII letters are
 * case-folded and only the whitespace characters listed in `IsSpace` are trimmed.
 */
module Strings {

  predicate IsUpper(c: char) {
    'A' <= c <= 'Z'
  }

  /** A whitespace or line-terminator character that `trim` removes. */
  predicate IsSpace(c: char) {
    c == ' ' || c == '\t' || c == '\n' || c == '\r' ||
    c == '\U{B}' || c == '\U{C}' || c == '\U{A0}' || c == '\U{FEFF}' ||
    c == '\U{2028}' || c == '\U{2029}'
  }

  function LowerChar(c: char): (r: char)
    ensures !IsUpper(r)
    ensures IsUpper(c) ==> r as int == c as int + 32
    ensures !IsUpper(c) ==> r == c
  {
    if IsUpper(c) then (c as int + 32) as char else c
  }

  /** `s.toLowerCase()`, restricted to ASCII letters. */
  function Lower(s: string): (r: string)
    ensures |r| == |s|
    ensures forall i :: 0 <= i < |r| ==> !IsUpper(r[i])
    ensures forall i :: 0 <= i < |r| ==> r[i] == LowerChar(s[i])
  {
    seq(|s|, i requires 0 <= i < |s| => LowerChar(s[i]))
  }

  /** Lower-casing a string that is already lower case changes nothing. */
  lemma LowerIdempotent(s: string)
    ensures Lower(Lower(s)) == Lower(s)
  {
    var t := Lower(s);
    assert forall i :: 0 <= i < |t| ==> LowerChar(t[i]) == t[i];
  }

  /** Leading whitespace removed. */
  function TrimStart(s: string): (r: string)
    ensures |r| <= |s| && r == s[|s| - |r|..]
    ensures forall i :: 0 <= i < |s| - |r| ==> IsSpace(s[i])
    ensures r == [] || !IsSpace(r[0])
  {
    if |s| > 0 && IsSpace(s[0]) then TrimStart(s[1..]) else s
  }

  /** Trailing whitespace removed. */
  function TrimEnd(s: string): (r: string)
    ensures |r| <= |s| && r == s[..|r|]
    ensures forall i :: |r| <= i < |s| ==> IsSpace(s[i])
    ensures r == [] || !IsSpace(r[|r| - 1])
  {
    if |s| > 0 && IsSpace(s[|s| - 1]) then TrimEnd(s[..|s| - 1]) else s
  }

  /**
   * `r` occurs in `s` starting at position `a`, and everything of `s` before
   * and after that occurrence is whitespace.
   */
  predicate TrimmedAt(r: string, s: string, a: int) {
    && 0 <= a && a + |r| <= |s| && r == s[a..a + |r|]
    && (forall i :: 0 <= i < a ==> IsSpace(s[i]))
    && (forall i :: a + |r| <= i < |s| ==> IsSpace(s[i]))
  }

  /**
   * `s.trim()`: `s` with only whitespace removed, and only at its two ends,
   * leaving a text that neither starts nor ends with whitespace.
   */
  function Trim(s: string): (r: string)
    ensures exists a :: TrimmedAt(r, s, a)
    ensures r == [] || (!IsSpace(r[0]) && !IsSpace(r[|r| - 1]))
  {
    var t := TrimStart(s);
    var r := TrimEnd(t);
    assert TrimmedAt(r, s, |s| - |t|);
    r
  }

  /** A string with no whitespace at either end is its own trim. */
  lemma {:induction false} TrimUntrimmed(s: string)
    requires s == [] || (!IsSpace(s[0]) && !IsSpace(s[|s| - 1]))
    ensures Trim(s) == s
  {
  }

  /** `r` is the infix of `s` at `a`, lower-cased, with only whitespace around it in `s`. */
  predicate LoweredAt(r: string, s: string, a: int) {
    && 0 <= a && a + |r| <= |s|
    && (forall i :: 0 <= i < |r| ==> r[i] == LowerChar(s[a + i]))
    && (forall i :: 0 <= i < a ==> IsSpace(s[i]))
    && (forall i :: a + |r| <= i < |s| ==> IsSpace(s[i]))
  }

  /**
   * The comparison form `String(o).trim().toLowerCase()` used by the
   * true/false normalizer: the trimmed text, lower-cased character by
   * character, with no whitespace and no upper-case letter left at its ends.
   */
  function Canon(s: string): (r: string)
    ensures exists a :: LoweredAt(r, s, a)
    ensures r == [] || (!IsSpace(r[0]) && !IsSpace(r[|r| - 1]))
    ensures forall i :: 0 <= i < |r| ==> !IsUpper(r[i])
  {
    var t := Trim(s);
    var a :| TrimmedAt(t, s, a);
    LowerTrimmed(t, s, a);
    Lower(t)
  }

  lemma LowerTrimmed(t: string, s: string, a: int)
    requires TrimmedAt(t, s, a) && (t == [] || (!IsSpace(t[0]) && !IsSpace(t[|t| - 1])))
    ensures LoweredAt(Lower(t), s, a)
    ensures var r := Lower(t); r == [] || (!IsSpace(r[0]) && !IsSpace(r[|r| - 1]))
  {
    var r := Lower(t);
    forall i | 0 <= i < |r|
      ensures r[i] == LowerChar(s[a + i])
    {
      assert t[i] == s[a + i];
    }
  }

  /** The two default true/false option texts read as "true" and "false". */
  lemma CanonTrueFalse()
    ensures Canon("True") == "true" && Canon("False") == "false"
  {
    CanonTrue();
    CanonFalse();
  }

  lemma CanonTrue()
    ensures Canon("True") == "true"
  {
    var t := "True";
    assert !IsSpace(t[0]) && !IsSpace(t[|t| - 1]);
    CanonUntrimmed(t);
    LowerTrue();
  }

  lemma LowerTrue()
    ensures Lower("True") == "true"
  {
    assert Lower("True")[0] == 't';
  }

  lemma CanonFalse()
    ensures Canon("False") == "false"
  {
    var f := "False";
    assert !IsSpace(f[0]) && !IsSpace(f[|f| - 1]);
    CanonUntrimmed(f);
    LowerFalse();
  }

  lemma LowerFalse()
    ensures Lower("False") == "false"
  {
    assert Lower("False")[0] == 'f';
  }

  /** A text with no whitespace at either end canonicalises to its lower-casing. */
  lemma CanonUntrimmed(s: string)
    requires s == [] || (!IsSpace(s[0]) && !IsSpace(s[|s| - 1]))
    ensures Canon(s) == Lower(s)
  {
    TrimUntrimmed(s);
  }
}

=== FILE: wrappers.dfy ===
/** A value that may be absent: a JavaScript field that is missing, `null` or of another type. */
module Wrappers {

  datatype Option<+T> = None | Some(value: T) {

    /** `x ?? d`: the value when present, otherwise `d`. */
    function GetOr(d: T): T {
      match this
      case Some(v) => v
      case None => d
    }
  }
}
